=== FILE: README.md ===
# scrapeWebsite, modelled in Dafny

A model of `scrapeWebsite` from the terminalGPT `@scrapper` plugin
(`src/commands/scrapper.ts`). The function loads a web page in a headless
browser, pulls three pieces of text out of the parsed page, puts them into a
fixed template and cuts the result down until it fits a token budget of
150000 gpt-4 tokens. A `finally` block closes what it opened, the
context first; a rejected context close skips the browser close.

The model has six modules:

- `Wrappers` (`wrappers.dfy`): `Option` and `Result`.
- `Utf16` (`utf16.dfy`): JavaScript string values as sequences of UTF-16 code
  units (`JsString`). `length`, indices and `slice` count code units.
- `Dom` (`dom.dfy`): an already-parsed node tree with Element, Text and Comment
  nodes. It defines tree order (`Descendants`) and `textContent`. It also
  defines selector matching for type selectors (`main`), class selectors
  (`.content`) and comma-separated selector lists, and uses it for
  `querySelector` and `querySelectorAll`. These follow the WHATWG DOM
  Standard: section 4.2.6 ("Mixin ParentNode") says the first match is taken
  in tree order, and section 4.4 ("Interface Node") defines descendant text
  content.
- `Extract` (`extract.dfy`): the title, main-content and paragraph slots,
  `Array.prototype.join`, and the template
  `Title: ${title}\n\nMain Content:\n${main}\n\nParagraphs:\n${paragraphs}`,
  with its labels written out as code units.
- `Budget` (`budget.dfy`): the truncation loop. It is written once as a recursive
  function (`Truncate`) and once as the `while` loop of `scrapeWebsite`
  (`TruncateLoop`), and the two are proved equal.
- `Scraper` (`scraper.dfy`): the `try`/`catch`/`finally` lifecycle. Each awaited
  browser call, `encoding_for_model("gpt-4")` and every `encode` call becomes
  an input that either resolves or fails with an error. The model records
  which lifecycle calls are made and how the returned promise settles.

Modelling choices:

- The gpt-4 encoder is a parameter `encode: JsString -> Result<nat, Error>`:
  for each text it either gives the number of tokens or throws (tiktoken's
  `encode` throws on a text holding a special token such as `<|endoftext|>`).
  A throw inside the loop ends the loop and propagates to the `catch` block.
  The only thing assumed of the encoder is that the empty text encodes within
  150000 tokens. Without that assumption the loop in `scrapeWebsite` need not
  end: if no text in the cut sequence fits, the loop reaches `""`, and
  `"".slice(0, 0)` is `""` again, so it repeats forever. Monotonicity of the
  encoder is not needed, because every iteration makes a non-empty text
  strictly shorter.
- `Math.floor(len * 0.9)` is modelled as `(9 * len) / 10`. The two agree for
  every length below 2^50. That is far above any engine's string length
  limit (about 2^29 code units in V8). They do differ above it, for example at
  `len = 1251001035159331`.
- Text is a sequence of UTF-16 code units, as in JavaScript. So
  `slice(0, k)` is the prefix of `k` code units, and a cut may keep the first
  half of a surrogate pair without the second (`Budget.CutMaySplitSurrogatePair`).
  Element names and class names stay Dafny strings, because they are only
  compared.
- `document.querySelector("main, article, .content")` is one selector list.
  It returns the first element in tree order that matches any of the three
  selectors, so an earlier `article` wins over a later `main`. This model
  follows that code. A "priority order" reading (all `main` elements first,
  then `article`, then `.content`) is not what the code does.
- In the `finally` block, `await context.close()` comes before
  `await browser.close()`. If `context.close()` rejects, the block ends there:
  `browser.close()` is never called and the close error replaces the
  outcome. The model keeps this. So the browser is closed exactly when it was
  launched, unless a context was created and closing it rejected.
- `scrapeWebsite` sets no navigation timeout and never frees the tiktoken
  encoder. Neither is modelled.
- `scrapeWebsite` has no special case for an empty text. An empty text fits
  anyway, so it comes back unchanged.

## Model

| member | source | states |
|---|---|---|
| `Dom.TextContent` | src/commands/scrapper.ts:79-83 | the `textContent` of an element is the data of its Text descendants in tree order; for a Text or Comment node it is the node's own data |
| `Dom.TextOfIsDescendantText` | src/commands/scrapper.ts:79 | `textContent`, computed by walking the tree, is the data of every Text descendant concatenated in tree order; comments contribute nothing |
| `Dom.FirstMatch` | src/commands/scrapper.ts:80-81 | the position found is matched by the selector list and no earlier node is; if no position is found, no node matches |
| `Dom.QuerySelector` | src/commands/scrapper.ts:79-81 | `querySelector` returns a matching node of the document's tree, or none exactly when no node in the tree matches |
| `Dom.QuerySelectorAll` | src/commands/scrapper.ts:82 | `querySelectorAll` lists every matching node of the tree and nothing else |
| `Dom.AllMatchesMembers` | src/commands/scrapper.ts:82 | a node is listed among the matches iff it is in the list and matched |
| `Dom.AllMatchesAppend` | src/commands/scrapper.ts:82 | matches keep tree order: the matches of a concatenation are the matches of the first part followed by those of the second |
| `Dom.QuerySelectorIsFirstOfAll` | src/commands/scrapper.ts:79-82 | `querySelector` finds nothing iff `querySelectorAll` is empty, and otherwise returns the head of `querySelectorAll` |
| `Dom.FirstMatchOfUnion` | src/commands/scrapper.ts:80-81 | the first match of a concatenated selector list is the earlier of the first matches of its two halves |
| `Extract.MainIsEarliestCandidate` | src/commands/scrapper.ts:80-81 | the main-content element is the earliest in tree order of the first `main`, first `article` and first `.content` element |
| `Extract.ArticleBeforeMainWins` | src/commands/scrapper.ts:80-81 | in `<article>A</article><main>M</main>` the main-content slot is `A` |
| `Extract.Title` | src/commands/scrapper.ts:79 | the title slot is the text of the first `title` element in tree order; it is empty when there is no `title` element |
| `Extract.MainContent` | src/commands/scrapper.ts:80-81 | the main-content slot is the text of the first element in tree order that is a `main`, an `article` or has class `content`; it is empty when none matches |
| `Extract.TextContents` | src/commands/scrapper.ts:83 | `.map(p => p.textContent)` gives one text per element, the i-th being the text of the i-th element |
| `Extract.SplitJoin` | src/commands/scrapper.ts:82-84 | joining at least one part with a one-character separator that no part contains is undone by splitting at that character |
| `Extract.ParagraphLines` | src/commands/scrapper.ts:82-84 | the paragraph slot is empty when there are no `p` elements; otherwise its lines are the texts of the `p` elements in tree order, as long as those texts have no line break |
| `Extract.Assemble` | src/commands/scrapper.ts:86 | the template starts with `Title: ` and the title, ends with the paragraph text, and adds exactly 37 code units of labels and line feeds to the three slots |
| `Extract.AssembleSplit` | src/commands/scrapper.ts:86 | read line by line, the template gives the lines of `Title: ` plus the title, a blank line, `Main Content:`, the lines of the main content, a blank line, `Paragraphs:` and the lines of the paragraph slot, whatever line breaks the slots contain |
| `Extract.AssembleLines` | src/commands/scrapper.ts:86 | read line by line, the template gives back `Title: ` plus the title, a blank line, `Main Content:`, the main content, a blank line, `Paragraphs:` and then the lines of the paragraph slot, as long as title and main content are single lines |
| `Extract.MissingElementsGiveEmptySlots` | src/commands/scrapper.ts:79-86 | a document with no `title`, no `main`/`article`/`.content` and no `p` gives the template with three empty slots, not an error |
| `Extract.SampleExtraction` | src/commands/scrapper.ts:79-86 | for `<html><head><title>T</title></head><body><article>A</article><p>X</p><p>Y</p></body></html>` the extracted text is `Title: T`, then `Main Content:` with `A`, then `Paragraphs:` with `X` and `Y` on separate lines |
| `Budget.ShrunkLength` | src/commands/scrapper.ts:95 | the new length is the floor of 0.9 times the old one (ten times it is at most nine times the old length and ten times its successor is more), and it is strictly smaller for a non-empty text |
| `Budget.Cut` | src/commands/scrapper.ts:93-96 | one iteration keeps a prefix of the text whose length is the floor of 90% of the old length, counted in code units |
| `Budget.CutMaySplitSurrogatePair` | src/commands/scrapper.ts:93-96 | the cut of `a` followed by an emoji keeps `a` and the first half of the emoji's surrogate pair |
| `Budget.Truncate` | src/commands/scrapper.ts:88-100 | a returned text fits the budget and is a prefix of the assembled text; a text that already fits comes back unchanged; if encoding the text throws, that error is the outcome |
| `Budget.TruncateLoop` | src/commands/scrapper.ts:91-98 | the `while` loop terminates; a returned text fits the budget and is a prefix of the input; a fitting input comes back unchanged; the result, text or thrown error, equals `Truncate` |
| `Budget.TruncateIsFirstFit` | src/commands/scrapper.ts:91-98 | the loop stops after exactly `Iterations` cuts, at a text that fits or whose encoding throws, and returns that text or that error; every earlier text encoded without throwing to more than 150000 tokens, so the loop never stops early |
| `Budget.ShrunkShrinks` | src/commands/scrapper.ts:92-97 | each iteration yields a prefix of the previous text, strictly shorter while the text is non-empty |
| `Budget.TruncateSucceeds` | src/commands/scrapper.ts:91-98 | if the encoder encodes every prefix of the text without throwing, the loop returns a text |
| `Budget.IterationsBounded` | src/commands/scrapper.ts:92-97 | whatever the encoder, the loop runs at most as many iterations as it takes the length to reach zero under the 90% cut, which is at most the length |
| `Budget.TruncateIdempotent` | src/commands/scrapper.ts:91-100 | truncating the truncated text again returns it unchanged |
| `Scraper.TryBlock` | src/commands/scrapper.ts:67-100 | the browser variable is set iff the launch resolved, the context variable iff launch and `newContext` resolved; no close call happens in the try block; a resolved try block got the encoder and returns the truncation of the page's extracted text |
| `Scraper.FinallyBlock` | src/commands/scrapper.ts:104-106 | the `finally` block keeps the calls made so far and appends only close calls, each at most once and the context close before the browser close; it closes the context iff one was set, and the browser iff one was set and no context close rejected; the outcome stays as the try block left it when the reached closes resolve, and a rejected close replaces it |
| `Scraper.ScrapeWebsite` | src/commands/scrapper.ts:63-108 | the context is closed iff it was created; the browser is closed iff it was launched and no context close rejected; the promise resolves iff every call resolves, including getting the encoder and every `encode` call, so a failure never yields partial text; a resolved result fits the budget and is a prefix of the page's extracted text |
| `Scraper.CallsWellOrdered` | src/commands/scrapper.ts:67-106 | launch comes first, no lifecycle call is made twice, and the context is closed before the browser |
| `Scraper.ReleasedWhenClosesResolve` | src/commands/scrapper.ts:104-106 | when every close call that is reached resolves, the context is closed iff it was created and the browser iff it was launched, on success and on failure |
| `Scraper.ErrorsRethrown` | src/commands/scrapper.ts:101-103 | when every close call that is reached resolves, the error of the first failing step is re-thrown unchanged, including an error from `encoding_for_model` or from `encode`; if no step failed, the truncated text is returned |
| `Scraper.CloseErrorReplacesOutcome` | src/commands/scrapper.ts:104-106 | a rejected `context.close()` or `browser.close()` replaces the outcome of the try block, whether that outcome was a success or an error |

## Left out

- Browser I/O: launching Chromium, `newContext`, `newPage`, `goto` with `networkidle`, and `page.content()`. They are reduced to a resolve-or-reject outcome per call. The page load is one input that stands for `newPage`, `goto`, `content()` and the parse.
- `randomUseragent.getRandom()`: library randomness. The user agent is a parameter and is recorded on the `NewContext` call.
- JSDOM's HTML parsing. The model starts from an already-built node tree. Element names are as the parser gives them (lower case for HTML), and class lists are already split into tokens. Attributes other than `class`, namespaces, and quirks-mode case-insensitive class matching are not modelled.
- The tiktoken gpt-4 encoder: a foreign BPE tokenizer. It is an uninterpreted function that gives a token count or throws; the only fact assumed of it is that the empty text encodes within the budget.
- IEEE floating point in `Math.floor(len * 0.9)`. It is modelled as integer arithmetic, which gives the same result for every length below 2^50, far above any engine's string length limit.
- The URL regular expression in `execute` (lines 24-26). A faithful model would need backtracking regex semantics with `\b`.
- Plugin dispatch, `addContext`, `promptResponse` (the language-model call), and chalk/console logging (lines 11-61 and 102). These are I/O and external collaborators. The `catch` block is modelled only as re-throwing the same error.
- Concurrency between invocations: each invocation is modelled on its own.

=== FILE: budget.dfy ===
/**
 The token-budget truncation of `scrapeWebsite`: encode the text; while it
 has more than 150000 tokens, keep its first 90% of code units (rounded down)
 and encode again. The gpt-4 encoder is an abstract function that either
 gives a token count or throws (tiktoken's `encode` throws, for one, on text
 holding a special token such as `<|endoftext|>`); the only fact assumed of
 it is that the empty text encodes within the budget.
 */
module Budget {
  import opened Wrappers
  import opened Utf16

  /** `maxTokens`. */
  const MaxTokens: nat := 150000

  /** `encoder.encode(text).length`, or the error `encode` throws. */
  type Encoder<E> = JsString -> Result<nat, E>

  /** Whether a text encodes within the token budget. */
  predicate Fits<E>(encode: Encoder<E>, text: JsString)
  {
    encode(text).Success? && encode(text).value <= MaxTokens
  }

  /** Whether the loop ends at this text: its encoding throws or it fits. */
  predicate Stops<E>(encode: Encoder<E>, text: JsString)
  {
    encode(text).Failure? || Fits(encode, text)
  }

  /** `Math.floor(len * 0.9)`: the largest length whose tenfold is at most
      nine times `len`. The double-precision product rounds to the same
      integer for every `len` below 2^50, far above any engine's string
      length limit. */
  function ShrunkLength(len: nat): (r: nat)
    ensures 10 * r <= 9 * len < 10 * (r + 1)
    ensures len > 0 ==> r < len
  {
    (9 * len) / 10
  }

  /** One loop iteration: `text.slice(0, Math.floor(text.length * 0.9))`,
      which keeps a prefix counted in code units. */
  function Cut(text: JsString): (r: JsString)
    ensures r <= text
    ensures |r| == ShrunkLength(|text|)
  {
    text[..ShrunkLength(|text|)]
  }

  /** `"a😀".slice(0, 2)`: the cut counts code units and may keep
      the first half of a surrogate pair without the second. */
  lemma CutMaySplitSurrogatePair()
    ensures var r := Cut([0x61, 0xD83D, 0xDE00]);
      r == [0x61, 0xD83D] && IsHighSurrogate(r[|r| - 1])
  {
  }

  /** The outcome of the loop: the first text of the sequence `text`,
      `Cut(text)`, `Cut(Cut(text))`, ... that fits the budget, unless encoding
      one of them throws first, in which case that error propagates. */
  function Truncate<E>(text: JsString, encode: Encoder<E>): (r: Result<JsString, E>)
    requires Fits(encode, [])
    ensures r.Success? ==> Fits(encode, r.value) && r.value <= text
    ensures Fits(encode, text) ==> r == Success(text)
    ensures encode(text).Failure? ==> r == Failure(encode(text).error)
    decreases |text|
  {
    match encode(text)
    case Failure(e) => Failure(e)
    case Success(tokens) =>
      if tokens <= MaxTokens then Success(text) else Truncate(Cut(text), encode)
  }

  /** The loop of `scrapeWebsite` as written: encode, and while over budget,
      cut and encode again; a throwing `encode` ends it with that error. */
  method TruncateLoop<E>(text: JsString, encode: Encoder<E>) returns (r: Result<JsString, E>)
    requires Fits(encode, [])
    ensures r.Success? ==> Fits(encode, r.value) && r.value <= text
    ensures Fits(encode, text) ==> r == Success(text)
    ensures r == Truncate(text, encode)
  {
    var t := text;
    var tokens := encode(t);
    while tokens.Success? && tokens.value > MaxTokens
      invariant tokens == encode(t)
      invariant t <= text
      invariant Truncate(t, encode) == Truncate(text, encode)
      decreases |t|
    {
      t := t[..ShrunkLength(|t|)];
      tokens := encode(t);
    }
    if tokens.Failure? {
      r := Failure(tokens.error);
    } else {
      r := Success(t);
    }
  }

  /** The text after `i` iterations of the loop body, regardless of the budget. */
  function Shrunk(text: JsString, i: nat): JsString
  {
    if i == 0 then text else Cut(Shrunk(text, i - 1))
  }

  /** Each iteration keeps a prefix, strictly shorter while the text is non-empty. */
  lemma {:induction false} ShrunkShrinks(text: JsString, i: nat)
    ensures Shrunk(text, i + 1) <= Shrunk(text, i) <= text
    ensures |Shrunk(text, i)| > 0 ==> |Shrunk(text, i + 1)| < |Shrunk(text, i)|
  {
    if i > 0 {
      ShrunkShrinks(text, i - 1);
    }
  }

  /** The number of iterations the loop runs. */
  function Iterations<E>(text: JsString, encode: Encoder<E>): nat
    requires Fits(encode, [])
    decreases |text|
  {
    if Stops(encode, text) then 0 else 1 + Iterations(Cut(text), encode)
  }

  /** The number of iterations after which the text is certainly empty. */
  function IterationsToEmpty(len: nat): nat
  {
    if len == 0 then 0 else 1 + IterationsToEmpty(ShrunkLength(len))
  }

  /** The outcome is decided by the first text of the cut sequence at which
      the loop stops: it is the text after `Iterations` cuts (or the error
      its encoding throws), and every text before it encoded to more tokens
      than the budget. */
  lemma {:induction false} TruncateIsFirstFit<E>(text: JsString, encode: Encoder<E>)
    requires Fits(encode, [])
    ensures var last := Shrunk(text, Iterations(text, encode));
      && Stops(encode, last)
      && Truncate(text, encode) ==
           (if encode(last).Failure? then Failure(encode(last).error) else Success(last))
    ensures forall i :: 0 <= i < Iterations(text, encode) ==>
      encode(Shrunk(text, i)).Success? && encode(Shrunk(text, i)).value > MaxTokens
    decreases |text|
  {
    if !Stops(encode, text) {
      var k := Iterations(Cut(text), encode);
      TruncateIsFirstFit(Cut(text), encode);
      ShrunkOfCut(text, k);
      forall i | 0 <= i < k + 1
        ensures encode(Shrunk(text, i)).Success? && encode(Shrunk(text, i)).value > MaxTokens
      {
        if i > 0 {
          ShrunkOfCut(text, i - 1);
        }
      }
    }
  }

  /** Cutting first and then `i` more times is cutting `i + 1` times. */
  lemma {:induction false} ShrunkOfCut(text: JsString, i: nat)
    ensures Shrunk(Cut(text), i) == Shrunk(text, i + 1)
  {
    if i > 0 {
      ShrunkOfCut(text, i - 1);
    }
  }

  /** When the encoder accepts every prefix of the text, the loop cannot
      throw: it ends with a text within the budget. */
  lemma {:induction false} TruncateSucceeds<E>(text: JsString, encode: Encoder<E>)
    requires Fits(encode, [])
    requires forall k :: 0 <= k <= |text| ==> encode(text[..k]).Success?
    ensures Truncate(text, encode).Success?
    decreases |text|
  {
    assert text[..|text|] == text;
    if !Fits(encode, text) {
      var c := Cut(text);
      forall k | 0 <= k <= |c|
        ensures encode(c[..k]).Success?
      {
        assert c[..k] == text[..k];
      }
      TruncateSucceeds(c, encode);
    }
  }

  /** Termination does not depend on the tokenizer: the loop runs at most as
      many times as it takes the length to reach zero, which is at most the
      length itself. */
  lemma {:induction false} IterationsBounded<E>(text: JsString, encode: Encoder<E>)
    requires Fits(encode, [])
    ensures Iterations(text, encode) <= IterationsToEmpty(|text|) <= |text|
    decreases |text|
  {
    if !Stops(encode, text) {
      IterationsBounded(Cut(text), encode);
    }
    IterationsToEmptyBounded(|text|);
  }

  lemma {:induction false} IterationsToEmptyBounded(len: nat)
    ensures IterationsToEmpty(len) <= len
    decreases len
  {
    if len > 0 {
      IterationsToEmptyBounded(ShrunkLength(len));
    }
  }

  /** Truncating a truncated text changes nothing. */
  lemma TruncateIdempotent<E>(text: JsString, encode: Encoder<E>)
    requires Fits(encode, [])
    ensures Truncate(text, encode).Success? ==>
      Truncate(Truncate(text, encode).value, encode) == Truncate(text, encode)
  {
  }
}

=== FILE: dom.dfy ===
/**
 The part of the DOM that content extraction relies on: an already-parsed node
 tree, tree order, `textContent`, and the selector matching behind
 `querySelector` / `querySelectorAll` for type selectors (`main`) and class
 selectors (`.content`), alone or in a comma-separated selector list.
 */
module Dom {
  import opened Wrappers
  import opened Utf16

  /** A node of a parsed document. `localName` is the name as the HTML parser
      produces it (lower case for HTML elements); `classes` is the element's
      class list, i.e. its `class` attribute already split into tokens. */
  datatype Node =
    | Element(localName: string, classes: seq<string>, children: seq<Node>)
    | Text(data: JsString)
    | Comment(data: JsString)

  /** A document: its top-level children (normally the single `html` element). */
  datatype Document = Document(children: seq<Node>)

  /** All nodes of a forest in tree order: each node, then its descendants,
      then its following siblings (preorder, depth first). */
  function Descendants(ns: seq<Node>): seq<Node>
    decreases ns
  {
    if ns == [] then []
    else
      [ns[0]]
      + (if ns[0].Element? then Descendants(ns[0].children) else [])
      + Descendants(ns[1..])
  }

  lemma {:induction false} DescendantsAppend(a: seq<Node>, b: seq<Node>)
    ensures Descendants(a + b) == Descendants(a) + Descendants(b)
    decreases a
  {
    if a == [] {
      assert a + b == b;
    } else {
      assert (a + b)[0] == a[0];
      assert (a + b)[1..] == a[1..] + b;
      DescendantsAppend(a[1..], b);
    }
  }

  /** One step of the tree order, for a forest written as head and tail. */
  lemma DescendantsCons(n: Node, rest: seq<Node>)
    ensures Descendants([n] + rest)
      == [n] + (if n.Element? then Descendants(n.children) else []) + Descendants(rest)
  {
    assert ([n] + rest)[1..] == rest;
  }

  /** The data of the Text nodes of a node list, concatenated in list order. */
  function TextData(ns: seq<Node>): JsString
  {
    if ns == [] then []
    else (if ns[0].Text? then ns[0].data else []) + TextData(ns[1..])
  }

  lemma {:induction false} TextDataAppend(a: seq<Node>, b: seq<Node>)
    ensures TextData(a + b) == TextData(a) + TextData(b)
    decreases a
  {
    if a == [] {
      assert a + b == b;
    } else {
      assert (a + b)[0] == a[0];
      assert (a + b)[1..] == a[1..] + b;
      TextDataAppend(a[1..], b);
    }
  }

  /** Descendant text of a forest, computed structurally, the way a DOM
      implementation walks the tree: Text nodes contribute their data,
      Comment nodes nothing, Elements the text of their children. */
  function TextOf(ns: seq<Node>): JsString
    decreases ns
  {
    if ns == [] then []
    else
      (match ns[0]
       case Text(d) => d
       case Comment(_) => []
       case Element(_, _, kids) => TextOf(kids))
      + TextOf(ns[1..])
  }

  /** `node.textContent`: for an element, the concatenation of the data of
      its Text descendants in tree order; for a Text or Comment node, its own data. */
  function TextContent(n: Node): (r: JsString)
    ensures n.Element? ==> r == TextData(Descendants(n.children))
    ensures !n.Element? ==> r == n.data
  {
    match n
    case Element(_, _, kids) => TextOfIsDescendantText(kids); TextOf(kids)
    case Text(d) => d
    case Comment(d) => d
  }

  /** The structural walk computes the DOM's definition of descendant text
      content: the data of every Text descendant, in tree order. */
  lemma {:induction false} TextOfIsDescendantText(ns: seq<Node>)
    ensures TextOf(ns) == TextData(Descendants(ns))
    decreases ns
  {
    if ns != [] {
      var head := [ns[0]] + (if ns[0].Element? then Descendants(ns[0].children) else []);
      TextOfIsDescendantText(ns[1..]);
      TextDataAppend(head, Descendants(ns[1..]));
      TextDataAppend([ns[0]], if ns[0].Element? then Descendants(ns[0].children) else []);
      assert TextData([ns[0]]) == (if ns[0].Text? then ns[0].data else []) by {
        assert [ns[0]][1..] == [];
      }
      if ns[0].Element? {
        TextOfIsDescendantText(ns[0].children);
      } else {
        assert TextData([]) == [];
      }
    }
  }

  /** A simple selector: a type selector (`main`) or a class selector (`.content`). */
  datatype Selector = Type(name: string) | Class(name: string)

  /** Whether a node is an element matched by one simple selector. */
  predicate Matches(n: Node, s: Selector)
  {
    n.Element? &&
    match s
    case Type(t) => n.localName == t
    case Class(c) => c in n.classes
  }

  /** Whether a node is matched by a selector list (`main, article, .content`):
      by any one of its selectors. */
  predicate MatchesAny(n: Node, sels: seq<Selector>)
  {
    exists i :: 0 <= i < |sels| && Matches(n, sels[i])
  }

  /** The position of the first node of `ns` matched by the selector list. */
  function FirstMatch(ns: seq<Node>, sels: seq<Selector>): (r: Option<nat>)
    ensures r.Some? ==>
      && r.value < |ns|
      && MatchesAny(ns[r.value], sels)
      && forall j :: 0 <= j < r.value ==> !MatchesAny(ns[j], sels)
    ensures r.None? ==> forall j :: 0 <= j < |ns| ==> !MatchesAny(ns[j], sels)
    decreases ns
  {
    if ns == [] then None
    else if MatchesAny(ns[0], sels) then Some(0)
    else
      match FirstMatch(ns[1..], sels)
      case None => None
      case Some(k) => Some(k + 1)
  }

  /** The nodes of `ns` matched by the selector list, in their order in `ns`. */
  function AllMatches(ns: seq<Node>, sels: seq<Selector>): (r: seq<Node>)
    ensures |r| <= |ns|
    decreases ns
  {
    if ns == [] then []
    else (if MatchesAny(ns[0], sels) then [ns[0]] else []) + AllMatches(ns[1..], sels)
  }

  /** The matches are exactly the matching nodes of the list. */
  lemma {:induction false} AllMatchesMembers(ns: seq<Node>, sels: seq<Selector>)
    ensures forall n :: n in AllMatches(ns, sels) <==> n in ns && MatchesAny(n, sels)
    decreases ns
  {
    if ns != [] {
      AllMatchesMembers(ns[1..], sels);
      assert ns == [ns[0]] + ns[1..];
    }
  }

  /** `document.querySelector(list)`: the first element in tree order that
      the selector list matches, or none. */
  function QuerySelector(doc: Document, sels: seq<Selector>): (r: Option<Node>)
    ensures r.Some? ==> r.value in Descendants(doc.children) && MatchesAny(r.value, sels)
    ensures r.Some? ==>
              exists i :: 0 <= i < |Descendants(doc.children)| && Descendants(doc.children)[i] == r.value
                          && (forall j :: 0 <= j < i ==> !MatchesAny(Descendants(doc.children)[j], sels))
    ensures r.None? ==> forall n :: n in Descendants(doc.children) ==> !MatchesAny(n, sels)
  {
    var all := Descendants(doc.children);
    match FirstMatch(all, sels)
    case None => None
    case Some(i) => Some(all[i])
  }

  /** `document.querySelectorAll(list)`: every element the selector list
      matches, in tree order. */
  function QuerySelectorAll(doc: Document, sels: seq<Selector>): (r: seq<Node>)
    ensures forall n :: n in r ==> n in Descendants(doc.children) && MatchesAny(n, sels)
    ensures forall n :: n in Descendants(doc.children) && MatchesAny(n, sels) ==> n in r
  {
    AllMatchesMembers(Descendants(doc.children), sels);
    AllMatches(Descendants(doc.children), sels)
  }

  /** Matches of a concatenation keep the order of its parts: querySelectorAll
      lists earlier nodes first. */
  lemma {:induction false} AllMatchesAppend(a: seq<Node>, b: seq<Node>, sels: seq<Selector>)
    ensures AllMatches(a + b, sels) == AllMatches(a, sels) + AllMatches(b, sels)
    decreases a
  {
    if a == [] {
      assert a + b == b;
    } else {
      assert (a + b)[0] == a[0];
      assert (a + b)[1..] == a[1..] + b;
      AllMatchesAppend(a[1..], b, sels);
      var head := if MatchesAny(a[0], sels) then [a[0]] else [];
      calc {
        AllMatches(a + b, sels);
        head + AllMatches(a[1..] + b, sels);
        head + (AllMatches(a[1..], sels) + AllMatches(b, sels));
        (head + AllMatches(a[1..], sels)) + AllMatches(b, sels);
      }
    }
  }

  /** There is a first match exactly when the list of all matches is non-empty,
      and the first match is the head of that list. */
  lemma {:induction false} FirstMatchIsHeadOfAll(ns: seq<Node>, sels: seq<Selector>)
    ensures FirstMatch(ns, sels).None? <==> AllMatches(ns, sels) == []
    ensures FirstMatch(ns, sels).Some? ==>
      AllMatches(ns, sels)[0] == ns[FirstMatch(ns, sels).value]
    decreases ns
  {
    if ns != [] && !MatchesAny(ns[0], sels) {
      FirstMatchIsHeadOfAll(ns[1..], sels);
    }
  }

  /** `querySelector` returns the first element `querySelectorAll` would list. */
  lemma QuerySelectorIsFirstOfAll(doc: Document, sels: seq<Selector>)
    ensures QuerySelector(doc, sels).None? <==> QuerySelectorAll(doc, sels) == []
    ensures QuerySelector(doc, sels).Some? ==>
      QuerySelector(doc, sels).value == QuerySelectorAll(doc, sels)[0]
  {
    FirstMatchIsHeadOfAll(Descendants(doc.children), sels);
  }

  /** The earlier of two optional positions (none counts as later than any). */
  function Earlier(x: Option<nat>, y: Option<nat>): Option<nat>
  {
    match (x, y)
    case (None, _) => y
    case (_, None) => x
    case (Some(i), Some(j)) => if i <= j then x else y
  }

  /** A node matches a concatenated selector list iff it matches one of the halves. */
  lemma MatchesAnyUnion(n: Node, s1: seq<Selector>, s2: seq<Selector>)
    ensures MatchesAny(n, s1 + s2) <==> MatchesAny(n, s1) || MatchesAny(n, s2)
  {
    if MatchesAny(n, s1 + s2) {
      var i :| 0 <= i < |s1 + s2| && Matches(n, (s1 + s2)[i]);
      if i >= |s1| {
        assert Matches(n, s2[i - |s1|]);
      } else {
        assert Matches(n, s1[i]);
      }
    }
    if MatchesAny(n, s2) {
      var i :| 0 <= i < |s2| && Matches(n, s2[i]);
      assert (s1 + s2)[|s1| + i] == s2[i];
    }
    if MatchesAny(n, s1) {
      var i :| 0 <= i < |s1| && Matches(n, s1[i]);
      assert (s1 + s2)[i] == s1[i];
    }
  }

  /** A selector list is a union, not a priority order: its first match is the
      earlier of the first matches of its two halves. */
  lemma {:induction false} FirstMatchOfUnion(ns: seq<Node>, s1: seq<Selector>, s2: seq<Selector>)
    ensures FirstMatch(ns, s1 + s2) == Earlier(FirstMatch(ns, s1), FirstMatch(ns, s2))
    decreases ns
  {
    if ns != [] {
      MatchesAnyUnion(ns[0], s1, s2);
      if !MatchesAny(ns[0], s1 + s2) {
        FirstMatchOfUnion(ns[1..], s1, s2);
      }
    }
  }

  /** The first match is the one position that matches with no match before it. */
  lemma FirstMatchAt(ns: seq<Node>, sels: seq<Selector>, i: nat)
    requires i < |ns| && MatchesAny(ns[i], sels)
    requires forall j :: 0 <= j < i ==> !MatchesAny(ns[j], sels)
    ensures FirstMatch(ns, sels) == Some(i)
  {
  }

  /** Without matching nodes, the list of matches is empty. */
  lemma AllMatchesNone(ns: seq<Node>, sels: seq<Selector>)
    requires forall j :: 0 <= j < |ns| ==> !MatchesAny(ns[j], sels)
    ensures AllMatches(ns, sels) == []
  {
    AllMatchesMembers(ns, sels);
  }

  /** One step of `AllMatches`, for a list written as head and tail. */
  lemma AllMatchesCons(n: Node, rest: seq<Node>, sels: seq<Selector>)
    ensures AllMatches([n] + rest, sels) == (if MatchesAny(n, sels) then [n] else []) + AllMatches(rest, sels)
  {
    assert ([n] + rest)[1..] == rest;
  }

  /** The tree order of an element whose only child is a Text node. */
  lemma DescendantsOfLeaf(e: Node, leaf: Node)
    requires e.Element? && e.children == [leaf] && leaf.Text?
    ensures Descendants([e]) == [e, leaf]
  {
    DescendantsCons(leaf, []);
    DescendantsCons(e, []);
  }

  /** The text of an element whose only child is a Text node is that node's data. */
  lemma TextContentOfLeaf(e: Node, leaf: Node)
    requires e.Element? && e.children == [leaf] && leaf.Text?
    ensures TextContent(e) == leaf.data
  {
    DescendantsOfLeaf(e, leaf);
    assert [leaf][1..] == [];
    assert TextData([leaf]) == leaf.data + TextData([]);
  }

  /** The tree order of a single element. */
  lemma DescendantsOfParent(e: Node)
    requires e.Element?
    ensures Descendants([e]) == [e] + Descendants(e.children)
  {
    DescendantsCons(e, []);
    assert [e] + [] == [e];
  }

  /** The tree order of two sibling nodes. */
  lemma DescendantsOfPair(m: Node, n: Node)
    ensures Descendants([m, n]) == Descendants([m]) + Descendants([n])
  {
    DescendantsAppend([m], [n]);
    assert [m] + [n] == [m, n];
  }

  /** The matches of a matching element followed by a non-matching node. */
  lemma AllMatchesPair(other: Node, e: Node, rest: seq<Node>, sels: seq<Selector>)
    requires MatchesAny(e, sels) && !MatchesAny(other, sels)
    ensures AllMatches([e, other] + rest, sels) == [e] + AllMatches(rest, sels)
  {
    AllMatchesCons(other, rest, sels);
    AllMatchesCons(e, [other] + rest, sels);
    assert [e] + ([other] + rest) == [e, other] + rest;
  }

  /** The matches of a non-matching prefix followed by two matching elements,
      each followed by a non-matching node. */
  lemma TwoMatchesAfterNone(prefix: seq<Node>, e1: Node, n1: Node, e2: Node, n2: Node, sels: seq<Selector>)
    requires forall j :: 0 <= j < |prefix| ==> !MatchesAny(prefix[j], sels)
    requires MatchesAny(e1, sels) && !MatchesAny(n1, sels)
    requires MatchesAny(e2, sels) && !MatchesAny(n2, sels)
    ensures AllMatches(prefix + [e1, n1, e2, n2], sels) == [e1, e2]
  {
    AllMatchesNone(prefix, sels);
    AllMatchesAppend(prefix, [e1, n1, e2, n2], sels);
    AllMatchesPair(n2, e2, [], sels);
    assert [e2, n2] + [] == [e2, n2];
    assert AllMatches([], sels) == [];
    AllMatchesPair(n1, e1, [e2, n2], sels);
  }
}

=== FILE: extract.dfy ===
/**
 Content extraction of `scrapeWebsite`: the title, the main-content block and
 the paragraph text of a parsed document, put into one fixed text template.
 */
module Extract {
  import opened Wrappers
  import opened Utf16
  import opened Dom

  /** The selector `title`. */
  const TitleSelector: seq<Selector> := [Type("title")]
  /** The selector list `main, article, .content`. */
  const MainSelector: seq<Selector> := [Type("main"), Type("article"), Class("content")]
  /** The selector `p`. */
  const ParagraphSelector: seq<Selector> := [Type("p")]

  /** `element?.textContent || ""`: a missing element gives the empty string. */
  function SlotText(e: Option<Node>): JsString
  {
    match e
    case None => []
    case Some(n) => TextContent(n)
  }

  /** `parts.join(sep)`: the parts with `sep` between consecutive ones;
      no parts give the empty string. */
  function Join(parts: seq<JsString>, sep: JsString): JsString
  {
    if parts == [] then []
    else if |parts| == 1 then parts[0]
    else parts[0] + sep + Join(parts[1..], sep)
  }

  /** The pieces of `s` between occurrences of `sep` (always at least one);
      the inverse of joining with `[sep]`. */
  function Split(s: JsString, sep: CodeUnit): (r: seq<JsString>)
    ensures |r| >= 1
  {
    if s == [] then [[]]
    else
      var rest := Split(s[1..], sep);
      if s[0] == sep then [[]] + rest
      else [[s[0]] + rest[0]] + rest[1..]
  }

  /** A text without a separator is one piece. */
  lemma {:induction false} SplitWithoutSeparator(s: JsString, sep: CodeUnit)
    requires sep !in s
    ensures Split(s, sep) == [s]
  {
    if s != [] {
      SplitWithoutSeparator(s[1..], sep);
      assert [s[0]] + s[1..] == s;
    }
  }

  /** Splitting at a separator splits the pieces on each side independently. */
  lemma {:induction false} SplitAtSeparator(a: JsString, b: JsString, sep: CodeUnit)
    ensures Split(a + [sep] + b, sep) == Split(a, sep) + Split(b, sep)
  {
    if a == [] {
      assert a + [sep] + b == [sep] + b;
      assert ([sep] + b)[1..] == b;
    } else {
      var s := a + [sep] + b;
      assert s[0] == a[0];
      assert s[1..] == a[1..] + [sep] + b;
      SplitAtSeparator(a[1..], b, sep);
    }
  }

  /** Joining with a one-character separator that no part contains can be
      undone by splitting, whenever there is at least one part. */
  lemma {:induction false} SplitJoin(parts: seq<JsString>, sep: CodeUnit)
    requires |parts| >= 1
    requires forall i :: 0 <= i < |parts| ==> sep !in parts[i]
    ensures Split(Join(parts, [sep]), sep) == parts
    decreases |parts|
  {
    if |parts| == 1 {
      SplitWithoutSeparator(parts[0], sep);
    } else {
      SplitJoin(parts[1..], sep);
      SplitAtSeparator(parts[0], Join(parts[1..], [sep]), sep);
      SplitWithoutSeparator(parts[0], sep);
      assert [parts[0]] + parts[1..] == parts;
    }
  }

  /** `"Title: "` in code units. */
  const TitleLabel: JsString := [84, 105, 116, 108, 101, 58, 32]
  /** `"Main Content:"` in code units. */
  const MainLabel: JsString := [77, 97, 105, 110, 32, 67, 111, 110, 116, 101, 110, 116, 58]
  /** `"Paragraphs:"` in code units. */
  const ParagraphsLabel: JsString := [80, 97, 114, 97, 103, 114, 97, 112, 104, 115, 58]

  /** The template of `extractedContent`,
      `Title: ${title}\n\nMain Content:\n${main}\n\nParagraphs:\n${paragraphs}`:
      the three slots in order, with 37 code units of labels and line feeds
      around them. */
  function Assemble(title: JsString, main: JsString, paragraphs: JsString): (r: JsString)
    ensures |r| == |title| + |main| + |paragraphs| + 37
    ensures TitleLabel + title <= r
    ensures r[|r| - |paragraphs|..] == paragraphs
  {
    TitleLabel + title + [LineFeed, LineFeed] + MainLabel + [LineFeed] + main
      + [LineFeed, LineFeed] + ParagraphsLabel + [LineFeed] + paragraphs
  }

  /** Read line by line, the template gives back its slots: the title line,
      a blank line, the main-content heading, the main content, a blank line,
      the paragraph heading, then the lines of the paragraph text, as long as
      the title and the main content are single lines. */
  lemma AssembleLines(title: JsString, main: JsString, paragraphs: JsString)
    requires LineFeed !in title && LineFeed !in main
    ensures Split(Assemble(title, main, paragraphs), LineFeed)
      == [TitleLabel + title, [], MainLabel, main, [], ParagraphsLabel] + Split(paragraphs, LineFeed)
  {
    var nl := LineFeed;
    var l0, l2, l5 := TitleLabel + title, MainLabel, ParagraphsLabel;
    var t5 := l5 + [nl] + paragraphs;
    var t4 := [] + [nl] + t5;
    var t3 := main + [nl] + t4;
    var t2 := l2 + [nl] + t3;
    var t1 := [] + [nl] + t2;
    var t0 := l0 + [nl] + t1;
    assert Assemble(title, main, paragraphs) == t0;
    assert nl !in l0 by {
      assert nl !in TitleLabel;
    }
    var ps := Split(paragraphs, nl);
    SplitFirstLine(l5, paragraphs, nl);
    var s5 := [l5] + ps;
    SplitFirstLine([], t5, nl);
    var s4 := [[]] + s5;
    SplitFirstLine(main, t4, nl);
    var s3 := [main] + s4;
    SplitFirstLine(l2, t3, nl);
    var s2 := [l2] + s3;
    SplitFirstLine([], t2, nl);
    var s1 := [[]] + s2;
    SplitFirstLine(l0, t1, nl);
    assert Split(t0, nl) == [l0] + s1;
    Regroup(l0, [], l2, main, [], l5, ps);
  }

  /** Read line by line, the template gives the lines of `Title: ` plus the
      title, a blank line, the main-content heading, the lines of the main
      content, a blank line, the paragraph heading and the lines of the
      paragraph text, whatever line breaks the slots hold. */
  lemma AssembleSplit(title: JsString, main: JsString, paragraphs: JsString)
    ensures Split(Assemble(title, main, paragraphs), LineFeed)
      == Split(TitleLabel + title, LineFeed) + [[], MainLabel] + Split(main, LineFeed)
         + [[], ParagraphsLabel] + Split(paragraphs, LineFeed)
  {
    var nl := LineFeed;
    var l0 := TitleLabel + title;
    var t5 := ParagraphsLabel + [nl] + paragraphs;
    var t4 := [] + [nl] + t5;
    var t3 := main + [nl] + t4;
    var t2 := MainLabel + [nl] + t3;
    var t1 := [] + [nl] + t2;
    assert Assemble(title, main, paragraphs) == l0 + [nl] + t1;
    var ps, ms := Split(paragraphs, nl), Split(main, nl);
    SplitFirstLine(ParagraphsLabel, paragraphs, nl);
    var s5 := [ParagraphsLabel] + ps;
    SplitFirstLine([], t5, nl);
    var s4 := [[]] + s5;
    SplitAtSeparator(main, t4, nl);
    var s3 := ms + s4;
    SplitFirstLine(MainLabel, t3, nl);
    var s2 := [MainLabel] + s3;
    SplitFirstLine([], t2, nl);
    var s1 := [[]] + s2;
    SplitAtSeparator(l0, t1, nl);
    assert Split(l0 + [nl] + t1, nl) == Split(l0, nl) + s1;
    RegroupAround(Split(l0, nl), MainLabel, ms, ParagraphsLabel, ps);
  }

  /** Lines with two blank-and-heading pairs in between, regrouped as one list. */
  lemma RegroupAround(ts: seq<JsString>, c: JsString, ms: seq<JsString>, f: JsString, ps: seq<JsString>)
    ensures ts + ([[]] + ([c] + (ms + ([[]] + ([f] + ps))))) == ts + [[], c] + ms + [[], f] + ps
  {
  }

  /** Six lines in front of the rest, regrouped as one list. */
  lemma Regroup(a: JsString, b: JsString, c: JsString, d: JsString, e: JsString, f: JsString, ps: seq<JsString>)
    ensures [a] + ([b] + ([c] + ([d] + ([e] + ([f] + ps))))) == [a, b, c, d, e, f] + ps
  {
  }

  /** A line without a separator, then a separator: the line is the first piece. */
  lemma SplitFirstLine(line: JsString, rest: JsString, sep: CodeUnit)
    requires sep !in line
    ensures Split(line + [sep] + rest, sep) == [line] + Split(rest, sep)
  {
    SplitAtSeparator(line, rest, sep);
    SplitWithoutSeparator(line, sep);
  }

  /** The title slot: the text of the first `title` element. */
  function Title(doc: Document): (r: JsString)
    ensures var all := Descendants(doc.children);
      forall i :: (0 <= i < |all| && MatchesAny(all[i], TitleSelector)
                   && forall j :: 0 <= j < i ==> !MatchesAny(all[j], TitleSelector)) ==> r == TextContent(all[i])
    ensures (forall n :: n in Descendants(doc.children) ==> !MatchesAny(n, TitleSelector)) ==> r == []
  {
    SlotText(QuerySelector(doc, TitleSelector))
  }

  /** The main-content slot: the text of the first element, in tree order,
      that is a `main`, an `article`, or has class `content`. */
  function MainContent(doc: Document): (r: JsString)
    ensures var all := Descendants(doc.children);
      forall i :: (0 <= i < |all| && MatchesAny(all[i], MainSelector)
                   && forall j :: 0 <= j < i ==> !MatchesAny(all[j], MainSelector)) ==> r == TextContent(all[i])
    ensures (forall n :: n in Descendants(doc.children) ==> !MatchesAny(n, MainSelector)) ==> r == []
  {
    SlotText(QuerySelector(doc, MainSelector))
  }

  /** The paragraph slot: the texts of all `p` elements, in tree order,
      joined by newlines. */
  function Paragraphs(doc: Document): JsString
  {
    Join(TextContents(QuerySelectorAll(doc, ParagraphSelector)), [LineFeed])
  }

  /** `.map(p => p.textContent)`. */
  function TextContents(ns: seq<Node>): (r: seq<JsString>)
    ensures |r| == |ns|
    ensures forall i :: 0 <= i < |ns| ==> r[i] == TextContent(ns[i])
  {
    if ns == [] then [] else [TextContent(ns[0])] + TextContents(ns[1..])
  }

  /** The assembled text handed to the budget truncation. */
  function ExtractedContent(doc: Document): JsString
  {
    Assemble(Title(doc), MainContent(doc), Paragraphs(doc))
  }

  /** The main-content element is the earliest in tree order of the first
      `main`, the first `article` and the first `.content` element: the
      selector list is one union, not a priority order of three queries. */
  lemma MainIsEarliestCandidate(doc: Document)
    ensures FirstMatch(Descendants(doc.children), MainSelector) ==
      Earlier(FirstMatch(Descendants(doc.children), [Type("main")]),
              Earlier(FirstMatch(Descendants(doc.children), [Type("article")]),
                      FirstMatch(Descendants(doc.children), [Class("content")])))
  {
    var all := Descendants(doc.children);
    assert MainSelector == [Type("main")] + ([Type("article")] + [Class("content")]);
    FirstMatchOfUnion(all, [Type("main")], [Type("article")] + [Class("content")]);
    FirstMatchOfUnion(all, [Type("article")], [Class("content")]);
  }

  /** The paragraph slot is empty without `p` elements; otherwise, read line
      by line, it gives back the text of each `p` element in tree order, as
      long as no paragraph text has a line break of its own. */
  lemma ParagraphLines(doc: Document)
    ensures QuerySelectorAll(doc, ParagraphSelector) == [] ==> Paragraphs(doc) == []
    ensures var texts := TextContents(QuerySelectorAll(doc, ParagraphSelector));
      |texts| >= 1 && (forall i :: 0 <= i < |texts| ==> LineFeed !in texts[i]) ==>
        Split(Paragraphs(doc), LineFeed) == texts
  {
    var texts := TextContents(QuerySelectorAll(doc, ParagraphSelector));
    if |texts| >= 1 && (forall i :: 0 <= i < |texts| ==> LineFeed !in texts[i]) {
      SplitJoin(texts, LineFeed);
    }
  }

  /** A document without any `title`, `main`, `article`, `.content` or `p`
      element gives empty slots, not an error. */
  lemma MissingElementsGiveEmptySlots(doc: Document)
    requires forall n :: n in Descendants(doc.children) ==>
      !MatchesAny(n, TitleSelector) && !MatchesAny(n, MainSelector) && !MatchesAny(n, ParagraphSelector)
    ensures ExtractedContent(doc)
      == TitleLabel + [LineFeed, LineFeed] + MainLabel + [LineFeed, LineFeed, LineFeed] + ParagraphsLabel + [LineFeed]
  {
    QuerySelectorIsFirstOfAll(doc, ParagraphSelector);
  }

  /** `<html><head><title>T</title></head><body><article>A</article>
      <p>X</p><p>Y</p></body></html>`, for texts T, A, X and Y. */
  function SampleDocument(t: JsString, a: JsString, x: JsString, y: JsString): Document
  {
    Document([SampleNodes(t, a, x, y)[0]])
  }

  /** The nodes of the sample document, listed by hand in document order. */
  function SampleNodes(t: JsString, a: JsString, x: JsString, y: JsString): (r: seq<Node>)
    ensures |r| == 11
  {
    var title := Element("title", [], [Text(t)]);
    var article := Element("article", [], [Text(a)]);
    var p1 := Element("p", [], [Text(x)]);
    var p2 := Element("p", [], [Text(y)]);
    var body := Element("body", [], [article, p1, p2]);
    var head := Element("head", [], [title]);
    var html := Element("html", [], [head, body]);
    [html, head, title, Text(t), body, article, Text(a), p1, Text(x), p2, Text(y)]
  }

  lemma SampleTreeOrder(t: JsString, a: JsString, x: JsString, y: JsString)
    ensures Descendants(SampleDocument(t, a, x, y).children) == SampleNodes(t, a, x, y)
  {
    var title := Element("title", [], [Text(t)]);
    var article := Element("article", [], [Text(a)]);
    var p1 := Element("p", [], [Text(x)]);
    var p2 := Element("p", [], [Text(y)]);
    var body := Element("body", [], [article, p1, p2]);
    var head := Element("head", [], [title]);
    var html := Element("html", [], [head, body]);
    assert SampleDocument(t, a, x, y).children == [html];
    DescendantsOfLeaf(title, Text(t));
    DescendantsOfLeaf(p2, Text(y));
    DescendantsOfLeaf(p1, Text(x));
    DescendantsOfLeaf(article, Text(a));
    DescendantsOfPair(p1, p2);
    DescendantsCons(article, [p1, p2]);
    assert [article] + [p1, p2] == [article, p1, p2];
    assert Descendants([article, p1, p2]) == [article, Text(a), p1, Text(x), p2, Text(y)];
    DescendantsOfParent(body);
    DescendantsOfParent(head);
    DescendantsOfPair(head, body);
    DescendantsOfParent(html);
  }

  lemma SampleTitle(t: JsString, a: JsString, x: JsString, y: JsString)
    ensures Title(SampleDocument(t, a, x, y)) == t
  {
    SampleTreeOrder(t, a, x, y);
    var all := SampleNodes(t, a, x, y);
    assert !MatchesAny(all[0], TitleSelector);
    assert !MatchesAny(all[1], TitleSelector);
    assert MatchesAny(all[2], TitleSelector) by {
      assert Matches(all[2], TitleSelector[0]);
    }
    FirstMatchAt(all, TitleSelector, 2);
    TextContentOfLeaf(all[2], Text(t));
  }

  lemma SampleMain(t: JsString, a: JsString, x: JsString, y: JsString)
    ensures MainContent(SampleDocument(t, a, x, y)) == a
  {
    SampleTreeOrder(t, a, x, y);
    var all := SampleNodes(t, a, x, y);
    forall k | 0 <= k < 5
      ensures !MatchesAny(all[k], MainSelector)
    {
    }
    assert MatchesAny(all[5], MainSelector) by {
      assert Matches(all[5], MainSelector[1]);
    }
    FirstMatchAt(all, MainSelector, 5);
    TextContentOfLeaf(all[5], Text(a));
  }

  lemma SampleParagraphs(t: JsString, a: JsString, x: JsString, y: JsString)
    ensures Paragraphs(SampleDocument(t, a, x, y)) == x + [LineFeed] + y
  {
    SampleTreeOrder(t, a, x, y);
    var all := SampleNodes(t, a, x, y);
    var p1, t1, p2, t2 := all[7], all[8], all[9], all[10];
    forall k | 0 <= k < 7
      ensures !MatchesAny(all[k], ParagraphSelector)
    {
    }
    assert MatchesAny(p1, ParagraphSelector) by {
      assert Matches(p1, ParagraphSelector[0]);
    }
    assert MatchesAny(p2, ParagraphSelector) by {
      assert Matches(p2, ParagraphSelector[0]);
    }
    assert !MatchesAny(t1, ParagraphSelector);
    assert !MatchesAny(t2, ParagraphSelector);
    assert all == all[..7] + [p1, t1, p2, t2];
    TwoMatchesAfterNone(all[..7], p1, t1, p2, t2, ParagraphSelector);
    TextContentOfLeaf(p1, Text(x));
    TextContentOfLeaf(p2, Text(y));
    assert TextContents([p1, p2]) == [x, y];
    assert QuerySelectorAll(SampleDocument(t, a, x, y), ParagraphSelector) == [p1, p2];
    assert [x, y][1..] == [y];
    assert Join([x, y], [LineFeed]) == x + [LineFeed] + y;
  }

  /** The sample document extracts to its four texts in the template, the
      two paragraphs on separate lines. */
  lemma SampleExtraction(t: JsString, a: JsString, x: JsString, y: JsString)
    ensures ExtractedContent(SampleDocument(t, a, x, y))
      == TitleLabel + t + [LineFeed, LineFeed] + MainLabel + [LineFeed] + a
           + [LineFeed, LineFeed] + ParagraphsLabel + [LineFeed] + x + [LineFeed] + y
  {
    SampleTitle(t, a, x, y);
    SampleMain(t, a, x, y);
    SampleParagraphs(t, a, x, y);
  }

  /** `<body><article>A</article><main>M</main></body>`: the earlier
      `article` wins over the later `main`. */
  lemma ArticleBeforeMainWins(a: JsString, m: JsString)
    ensures MainContent(Document([Element("body", [], [
              Element("article", [], [Text(a)]),
              Element("main", [], [Text(m)])])])) == a
  {
    var article := Element("article", [], [Text(a)]);
    var main := Element("main", [], [Text(m)]);
    var body := Element("body", [], [article, main]);
    var all := [body, article, Text(a), main, Text(m)];
    DescendantsOfLeaf(article, Text(a));
    DescendantsOfLeaf(main, Text(m));
    DescendantsOfPair(article, main);
    DescendantsOfParent(body);
    assert Descendants([body]) == all;
    assert !MatchesAny(all[0], MainSelector);
    assert MatchesAny(all[1], MainSelector) by {
      assert Matches(all[1], MainSelector[1]);
    }
    FirstMatchAt(all, MainSelector, 1);
    TextContentOfLeaf(article, Text(a));
  }
}

=== FILE: scraper.dfy ===
/**
 `scrapeWebsite` as a whole: launch a browser, open a context with a given
 user agent, load the page, extract its text, get the gpt-4 encoder and
 truncate the text to the token budget, while an error raised inside is
 re-thrown. A `finally` block closes what was opened, the context first; a
 rejected context close skips the browser close. Each awaited call and each call that may throw is an input that
 says whether it resolves or rejects; the page load stands for `newPage`,
 `goto(url, networkidle)`, `content()` and the parse into a document.
 */
module Scraper {
  import opened Wrappers
  import opened Utf16
  import opened Dom
  import opened Extract
  import opened Budget

  /** An error a call rejects or throws with; its content is opaque here. */
  datatype Error = Error(cause: string)

  /** The browser-lifecycle calls `scrapeWebsite` makes, in call order. */
  datatype Call = Launch | NewContext(userAgent: string) | CloseContext | CloseBrowser

  /** How the returned promise settles. */
  datatype Outcome = Resolved(text: JsString) | Rejected(error: Error)

  /** The calls made during one invocation and how it settled. */
  datatype Run = Run(calls: seq<Call>, outcome: Outcome)

  /** How each call that can fail behaves in one invocation: `None` means it
      resolves, `Some(e)` that it rejects or throws with `e`. `encoding` is
      `encoding_for_model("gpt-4")`; `encode` is the encoder it returns, which
      throws on some texts (a special token such as `<|endoftext|>`). */
  datatype Environment = Environment(
    launch: Option<Error>,
    newContext: Option<Error>,
    page: Result<Document, Error>,
    encoding: Option<Error>,
    encode: Encoder<Error>,
    closeContext: Option<Error>,
    closeBrowser: Option<Error>)

  /** Whether `chromium.launch` gave a browser. */
  predicate Launched(env: Environment)
  {
    env.launch.None?
  }

  /** Whether `browser.newContext` gave a context. */
  predicate ContextCreated(env: Environment)
  {
    env.launch.None? && env.newContext.None?
  }

  /** Whether every call resolves: the browser calls, the page load, getting
      the encoder and every encoding the truncation loop asks for. */
  predicate AllResolve(env: Environment)
    requires Fits(env.encode, [])
  {
    && env.launch.None? && env.newContext.None? && env.page.Success?
    && env.encoding.None? && Truncate(ExtractedContent(env.page.value), env.encode).Success?
    && env.closeContext.None? && env.closeBrowser.None?
  }

  /** State at the end of the `try` block (after the `catch`, which logs and
      re-throws, so it leaves the outcome as it is). */
  datatype TryState = TryState(calls: seq<Call>, outcome: Outcome, browserSet: bool, contextSet: bool)

  /** The `try` block: each step runs only if the previous one resolved. */
  function TryBlock(env: Environment, userAgent: string): (s: TryState)
    requires Fits(env.encode, [])
    ensures s.browserSet <==> Launched(env)
    ensures s.contextSet <==> ContextCreated(env)
    ensures CloseContext !in s.calls && CloseBrowser !in s.calls
    ensures s.outcome.Resolved? ==>
      && env.page.Success? && env.encoding.None?
      && Truncate(ExtractedContent(env.page.value), env.encode) == Success(s.outcome.text)
  {
    if env.launch.Some? then
      TryState([Launch], Rejected(env.launch.value), false, false)
    else if env.newContext.Some? then
      TryState([Launch, NewContext(userAgent)], Rejected(env.newContext.value), true, false)
    else
      var outcome :=
        match env.page
        case Failure(e) => Rejected(e)
        case Success(doc) =>
          if env.encoding.Some? then Rejected(env.encoding.value)
          else
            match Truncate(ExtractedContent(doc), env.encode)
            case Failure(e) => Rejected(e)
            case Success(text) => Resolved(text);
      TryState([Launch, NewContext(userAgent)], outcome, true, true)
  }

  /** The `finally` block as written: `if (context) await context.close();`
      then `if (browser) await browser.close();`. It only appends close calls;
      a rejected close replaces the outcome, and a rejected `context.close()`
      ends the block before `browser.close()` is reached. */
  function FinallyBlock(s: TryState, env: Environment): (r: Run)
    requires CloseContext !in s.calls && CloseBrowser !in s.calls
    ensures s.calls <= r.calls
    ensures forall k :: |s.calls| <= k < |r.calls| ==> r.calls[k] == CloseContext || r.calls[k] == CloseBrowser
    ensures WellOrdered(r.calls[|s.calls|..])
    ensures CloseContext in r.calls <==> s.contextSet
    ensures CloseBrowser in r.calls <==> s.browserSet && (s.contextSet ==> env.closeContext.None?)
    ensures (s.contextSet ==> env.closeContext.None?) && (s.browserSet ==> env.closeBrowser.None?) ==>
      r.outcome == s.outcome
    ensures s.contextSet && env.closeContext.Some? ==> r.outcome == Rejected(env.closeContext.value)
    ensures s.browserSet && (s.contextSet ==> env.closeContext.None?) && env.closeBrowser.Some? ==>
      r.outcome == Rejected(env.closeBrowser.value)
  {
    if s.contextSet && env.closeContext.Some? then
      Run(s.calls + [CloseContext], Rejected(env.closeContext.value))
    else
      var calls := s.calls + (if s.contextSet then [CloseContext] else []);
      if s.browserSet then
        Run(calls + [CloseBrowser],
            if env.closeBrowser.Some? then Rejected(env.closeBrowser.value) else s.outcome)
      else Run(calls, s.outcome)
  }

  /** `scrapeWebsite(url)`. */
  function ScrapeWebsite(env: Environment, userAgent: string): (r: Run)
    requires Fits(env.encode, [])
    ensures CloseContext in r.calls <==> ContextCreated(env)
    ensures CloseBrowser in r.calls <==> Launched(env) && (ContextCreated(env) ==> env.closeContext.None?)
    ensures r.outcome.Resolved? <==> AllResolve(env)
    ensures r.outcome.Resolved? ==>
      && env.page.Success?
      && Fits(env.encode, r.outcome.text)
      && r.outcome.text <= ExtractedContent(env.page.value)
  {
    FinallyBlock(TryBlock(env, userAgent), env)
  }

  /** Context before browser, each call at most once: no call repeats, and a
      browser close never precedes a context close. */
  predicate WellOrdered(calls: seq<Call>)
  {
    && (forall i, j :: 0 <= i < j < |calls| ==> calls[i] != calls[j])
    && (forall i, j :: 0 <= i < j < |calls| && calls[i] == CloseBrowser ==> calls[j] != CloseContext)
    && (forall j :: 0 < j < |calls| ==> calls[j] != Launch)
  }

  /** Every invocation makes each lifecycle call at most once, launches first,
      and closes the context before the browser. */
  lemma CallsWellOrdered(env: Environment, userAgent: string)
    requires Fits(env.encode, [])
    ensures WellOrdered(ScrapeWebsite(env, userAgent).calls)
    ensures |ScrapeWebsite(env, userAgent).calls| > 0
    ensures ScrapeWebsite(env, userAgent).calls[0] == Launch
  {
  }

  /** Whether every close call that is reached resolves. */
  predicate ClosesResolve(env: Environment)
  {
    && (ContextCreated(env) ==> env.closeContext.None?)
    && (Launched(env) ==> env.closeBrowser.None?)
  }

  /** When the reached close calls resolve, nothing leaks: the context is
      closed exactly when it was created and the browser exactly when it was
      launched. */
  lemma ReleasedWhenClosesResolve(env: Environment, userAgent: string)
    requires Fits(env.encode, [])
    requires ClosesResolve(env)
    ensures CloseContext in ScrapeWebsite(env, userAgent).calls <==> ContextCreated(env)
    ensures CloseBrowser in ScrapeWebsite(env, userAgent).calls <==> Launched(env)
  {
  }

  /** When the reached close calls resolve, the settled outcome is that of the
      `try` block: the error of the first failing step is re-thrown unchanged
      (including an error the encoder throws), and otherwise the truncated
      extraction is returned. */
  lemma ErrorsRethrown(env: Environment, userAgent: string)
    requires Fits(env.encode, [])
    requires ClosesResolve(env)
    ensures ScrapeWebsite(env, userAgent).outcome ==
      if env.launch.Some? then Rejected(env.launch.value)
      else if env.newContext.Some? then Rejected(env.newContext.value)
      else if env.page.Failure? then Rejected(env.page.error)
      else if env.encoding.Some? then Rejected(env.encoding.value)
      else
        match Truncate(ExtractedContent(env.page.value), env.encode)
        case Failure(e) => Rejected(e)
        case Success(text) => Resolved(text)
  {
  }

  /** A rejected close wins over the try block's outcome, success or error. */
  lemma CloseErrorReplacesOutcome(env: Environment, userAgent: string)
    requires Fits(env.encode, [])
    ensures ContextCreated(env) && env.closeContext.Some? ==>
      ScrapeWebsite(env, userAgent).outcome == Rejected(env.closeContext.value)
    ensures Launched(env) && (ContextCreated(env) ==> env.closeContext.None?) && env.closeBrowser.Some? ==>
      ScrapeWebsite(env, userAgent).outcome == Rejected(env.closeBrowser.value)
  {
  }
}

=== FILE: utf16.dfy ===
/**
 JavaScript strings as the scraper sees them: sequences of UTF-16 code units.
 `length`, indices and `slice` count code units, so a character outside the
 Basic Multilingual Plane takes two (a surrogate pair) and `slice` may cut
 between them.
 */
module Utf16 {

  /** A UTF-16 code unit. */
  newtype CodeUnit = x: int | 0 <= x < 0x1_0000

  /** A JavaScript string value. */
  type JsString = seq<CodeUnit>

  /** `"\n"`. */
  const LineFeed: CodeUnit := 10

  /** Whether a code unit is the first half of a surrogate pair. */
  predicate IsHighSurrogate(u: CodeUnit)
  {
    0xD800 <= u < 0xDC00
  }
}

=== FILE: wrappers.dfy ===
/** Failure-carrying datatypes shared by the other modules. */
module Wrappers {

  /** An optional value: what `querySelector` returns (an element or null). */
  datatype Option<+T> = None | Some(value: T)

  /** A step that either produces a value or rejects with an error. */
  datatype Result<+T, +E> = Success(value: T) | Failure(error: E)
}
